=== FILE: README.md ===
# Hand-gesture shape sorting: interaction core in Dafny

The game shows floating coloured shapes. The user pinches a shape with thumb and index finger in front of a camera, carries it, and opens the hand over the floor zone of the shape's colour to score. This project models the two pieces of logic that decide what happens:

- **Gesture signal extraction** (`processResults`). One frame of hand landmarks becomes a `HandData {x, y, isPinching, isPresent}`. The cursor is the midpoint of the index tip (landmark 8) and the thumb tip (landmark 4). The hand pinches when those two tips are less than 0.08 apart in the image plane.
- **The per-frame interaction state machine** (the `useFrame` callback of `GameLogic`). It is a pure step function. It takes the shapes, the held id and the score, plus the hand signal and the viewport size. It walks the shapes in list order: a matched shape is skipped, and any other shape may be grabbed, carried or released into its zone. It returns the new shapes, the new held id and the new score.
- **The session lifecycle**: `generateShapes`, and the reset that starts once every shape is matched.

Modules, one per concern:

| file | module | models |
|---|---|---|
| `types.dfy` | `Types` | `types.ts` records; squared distance |
| `constants.dfy` | `Constants` | `constants.ts`; grab radius 1.5, score step 10 and population size 12 from `GameScene.tsx` |
| `hand_tracking.dfy` | `HandTracking` | `processResults` |
| `game_logic.dfy` | `GameLogic` | one tick: `StepShape`, the fold `StepShapes`, `Tick` |
| `exclusivity.dfy` | `Exclusivity` | grab/carry/release over a whole tick; the single-grab invariant |
| `population.dfy` | `Population` | `generateShapes`, ids `shape-<i>`, the all-matched reset |
| `scenarios.dfy` | `Scenarios` | the zone table written out, tick-level release, worked grab and release examples |

Modelling choices:

- Coordinates are `real`. Every `distanceTo` or `Math.sqrt` comparison `d < r` is written as `d² < r²`. This is exact because both sides are non-negative:
  - grab: `d² < 2.25`;
  - zone: `d² < 3.24`;
  - pinch: `d² < 0.0064`.
- The zone test measures from `(px, 0, pz)` to the zone centre, and the centre sits at y = 0.1. So the test is `(px-zx)² + 0.01 + (pz-zz)² < 3.24`. It is not a purely horizontal distance, although the program's own comment at components/GameScene.tsx:81 says the test ignores the y height; the model follows the code.
- `!grabbedShapeId.current` is JavaScript truthiness, so a held empty string counts as "nothing held" (`GameLogic.IsFree`). For this reason the single-grab invariant assumes non-empty, distinct ids. Generated ids always satisfy this (`Population.GenerateShapes`).
- React refs and state become explicit values threaded through `GameLogic.Tick`: the held id, the score and the shape list.
- `Math.random` becomes one `Draws` record per shape. Its five values are in `[0,1)` and are read in the order the object literal evaluates them: kind, colour, x, y, z.
- The viewport width and height are parameters of `Tick`.
- The zone test of a release is a parameter of the sweep and of `Tick`: a function from the released shape to where it lands, or `None`. The program's test is `GameLogic.ZoneLanding`: find the zone of the shape's colour, test the distance, and land on the floor at the zone's centre. The frame-level lemmas hold for any such test. The scenarios pass `ZoneLanding` itself.
- `processResults` reads `landmarks[8].x`. On a hand with fewer than nine landmarks that read throws, and the model returns `Failure(LandmarkMissing)` instead.

## Model

| member | source | states |
|---|---|---|
| `HandTracking.ProcessResults` | services/handTracking.ts:70-101 | With landmarks missing or empty, the signal is exactly `{0, 0, false, false}`. Otherwise only the first hand is read. `isPresent` holds exactly when a hand is detected. It fails only when the first hand lacks landmark 8. |
| `HandTracking.HandSignal` | services/handTracking.ts:76-100 | A hand with landmark 8 succeeds, and one without it fails. On success the cursor is equidistant from the index tip and the thumb tip, and lies between them on each axis. `isPresent` is true. |
| `HandTracking.PinchRule` | services/handTracking.ts:87-93 | The signal pinches iff `(ix-tx)² + (iy-ty)² < 0.0064`, that is, iff the tips are less than 0.08 apart in the image plane. |
| `HandTracking.FirstHandOnly` | services/handTracking.ts:76 | Hands after the first never change the signal. |
| `HandTracking.CursorStaysInImage` | services/handTracking.ts:84-85 | If both tips lie in `[0,1]²`, so does the cursor, as `HandData` documents. |
| `HandTracking.SwapFingertips` | services/handTracking.ts:84-91 | Exchanging landmarks 8 and 4 gives the same signal. |
| `HandTracking.PinchIgnoresDepth` | services/handTracking.ts:88-91 | Moving either tip, or both, in depth does not change the signal. |
| `HandTracking.PinchIsStrict` | services/handTracking.ts:93 | Tips exactly 0.08 apart do not pinch. Tips 0.079 apart do. |
| `GameLogic.IsFree` | components/GameScene.tsx:61 | `!grabbedShapeId.current`: nothing held or an empty id held both count as free, by JavaScript falsiness. |
| `GameLogic.Cursor` | components/GameScene.tsx:48-50 | The cursor lies on the plane z = 0. The image centre maps to the origin. The map is mirrored: for a positive width, the cursor is right of centre iff the hand is left of the image's centre, and likewise for height. |
| `GameLogic.CursorScale` | components/GameScene.tsx:48-50 | The cursor map is linear and mirrored: moving the hand by dx in the image moves the cursor by `-dx * width`, and likewise for y with `height`. |
| `GameLogic.FindZone` | components/GameScene.tsx:79 | The result is None iff no zone has the colour. Otherwise it is the first zone of that colour in list order, as `Array.prototype.find` returns. |
| `GameLogic.Grabbable` | components/GameScene.tsx:55-61 | The grab condition on a shape: it is unmatched and its Euclidean distance from the cursor in three dimensions is below 1.5 (compared squared). |
| `GameLogic.InZone` | components/GameScene.tsx:82-84 | The zone test: the distance from the shape's position lowered to y = 0 to the zone centre is below the zone radius (compared squared). |
| `GameLogic.ZoneLanding` | components/GameScene.tsx:79-92 | A shape lands only if its colour has a zone, and then on the floor (y = 0.5). |
| `GameLogic.Release` | components/GameScene.tsx:75-101 | A release clears the held id, ungrabs the shape and keeps its identity. It scores iff the shape lands. A landed shape is matched at the landing spot. Otherwise the shape is exactly the old one, ungrabbed, at `(px, 2.5, 0)`. |
| `GameLogic.StepShape` | components/GameScene.tsx:53-105 | One shape's update never changes its id, type or colour. |
| `GameLogic.StepShapes` | components/GameScene.tsx:52-105 | The list length is preserved, and so are each shape's id, type and colour. Matched shapes come back unchanged. At most one score event is emitted, and none while pinching. With nothing held and the hand open, nothing changes. |
| `GameLogic.Tick` | components/GameScene.tsx:41-107 | For any zone test: an absent hand changes nothing. Otherwise the list shape and identities are preserved and matched shapes are absorbing. The score rises by 0 or by 10, and never while pinching. |
| `Exclusivity.GrabSweep` | components/GameScene.tsx:57-64 | Pinching with nothing held grabs the first grabbable shape in list order. Its flag is set, its position is unchanged and its id becomes held. Every other shape, before or after it, is unchanged. |
| `Exclusivity.NoGrabSweep` | components/GameScene.tsx:57-64 | Pinching with nothing held and no shape within 1.5 changes nothing. |
| `Exclusivity.CarrySweep` | components/GameScene.tsx:66-72 | While pinching with a non-empty id held, exactly the unmatched shapes with that id move to the cursor. Nothing else changes, the id stays held and no score is emitted. |
| `Exclusivity.ReleaseSweep` | components/GameScene.tsx:74-101 | Opening the hand releases the first unmatched holder of the held id, and the held id becomes None. That shape becomes its `Release`, and exactly one event is emitted iff the release scores. All other shapes are unchanged. |
| `Exclusivity.NoHolderSweep` | components/GameScene.tsx:74-104 | Opening the hand while holding an id that no unmatched shape carries changes nothing. |
| `Exclusivity.AtMostOneGrabbed` | components/GameScene.tsx:39 | Under the invariant, two grabbed shapes are the same shape. |
| `Exclusivity.GrabKeepsExclusive` | components/GameScene.tsx:59-64 | A grab tick keeps the flags in agreement with the held id. |
| `Exclusivity.CarryKeepsExclusive` | components/GameScene.tsx:66-72 | A carry tick keeps the flags in agreement with the held id. |
| `Exclusivity.ReleaseKeepsExclusive` | components/GameScene.tsx:74-101 | After a release, nothing is held and no shape is grabbed. |
| `Exclusivity.TickPreservesExclusive` | components/GameScene.tsx:41-107 | Every tick keeps the ids distinct and non-empty. It also keeps at most one shape grabbed, namely the shape whose id is held, and that shape is unmatched. |
| `Population.NatToString` | components/GameScene.tsx:17 | The decimal text of a number is non-empty and all digits. It has at least two digits from 10 upwards, and it starts with `0` only for 0, so there are no leading zeros. |
| `Population.ShapeId` | components/GameScene.tsx:17 | An id is `shape-` followed by at least one decimal digit, with no leading zero except for shape 0. |
| `Population.ValueSnoc` | components/GameScene.tsx:17 | Appending a digit to a digit string multiplies its value by 10 and adds the digit. |
| `Population.NatToStringValue` | components/GameScene.tsx:17 | The text, read as decimal digits from the most significant one, denotes exactly `n`. |
| `Population.ShapeIdTen` | components/GameScene.tsx:17 | Shapes 10 and 11 get the ids `shape-10` and `shape-11`. |
| `Population.NatToStringInjective` | components/GameScene.tsx:17 | Different indices print differently. |
| `Population.ShapeIdsDistinct` | components/GameScene.tsx:17 | Ids `shape-<i>` are non-empty and pairwise distinct. |
| `Population.PickOfThree` | components/GameScene.tsx:18-19 | `Math.floor(r*3)` of a draw in `[0,1)` is a valid index into the three kinds or three colours. |
| `Population.KindOf` | components/GameScene.tsx:18 | The kind is a cube iff `3r < 1` and a tetrahedron iff `3r >= 2`, a sphere otherwise. |
| `Population.ColorOf` | components/GameScene.tsx:19 | The colour is red iff `3r < 1` and blue iff `3r >= 2`, green otherwise. |
| `Population.NewShape` | components/GameScene.tsx:16-26 | A new shape has the id `shape-<i>` and takes its kind and colour from their draws through `KindOf` and `ColorOf`. It starts unmatched and ungrabbed, with x in `[-4,4)`, y in `[2.5,3.5)` and z in `[-1,1)`. The x, y and z draws can be read back from the position. |
| `Population.GenerateShapes` | components/GameScene.tsx:12-28 | `count` shapes with ids `shape-0..shape-(count-1)`, all distinct, none matched or grabbed, all inside the spawning box. Shape `i` is exactly `NewShape(i, draws[i])`, so its kind and colour come from its own draws. |
| `Population.SpawnBoxCovered` | components/GameScene.tsx:20-24 | Every point of the spawning box is the position of some new shape with valid draws, so the box is the exact range of the spawn position. |
| `Population.AllMatched` | components/GameScene.tsx:123 | The definition of `shapes.every(s => s.isMatched)`: every shape in the list is matched, which holds for the empty list. |
| `Population.AfterReset` | components/GameScene.tsx:122-127 | A fresh population of 12 unmatched, ungrabbed shapes when every shape is matched. Otherwise the population is unchanged. |
| `Population.FreshNotAllMatched` | components/GameScene.tsx:119-127 | A fresh non-empty population does not trigger another reset. |
| `Population.FreshIsExclusive` | components/GameScene.tsx:12-28 | A fresh population satisfies the invariant with nothing held. |
| `Population.AllMatchedIsFrozen` | components/GameScene.tsx:52-107 | While every shape is matched, ticks change neither the shapes nor the score. |
| `Population.ResetKeepsExclusive` | components/GameScene.tsx:122-127 | Under the invariant, nothing is held once all shapes are matched, so the guarded reset keeps the invariant. |
| `Population.TimedReset` | components/GameScene.tsx:124-126 | The timeout installs 12 unmatched, ungrabbed shapes. It keeps the held id and the score. |
| `Population.TimedResetWhileHolding` | components/GameScene.tsx:124-126 | If the timeout fires while an id is held, the invariant is broken. |
| `Population.TimedResetCounterexample` | components/GameScene.tsx:119-127 | After a fresh population, a pinch with the cursor on the plane z = 0 over shape 0 grabs it, and the invariant holds. A queued timeout then breaks it. |
| `Scenarios.ZoneTestExplicit` | components/GameScene.tsx:79-84 | Every colour has a zone: red at x = -4, green at 0, blue at 4, each at y 0.1 and z 0. The release test is `(px-zx)² + 0.01 + pz² < 3.24`. |
| `Scenarios.LandingSpot` | components/GameScene.tsx:79-92 | A shape lands iff the zone test of its colour's zone passes, and then at `(zx, 0.5, 0)`. |
| `Scenarios.ReleaseTick` | components/GameScene.tsx:74-101 | Under the invariant, opening the hand clears the held id and releases exactly the grabbed shape. The score rises by 10 iff that shape lands, and is otherwise unchanged. All other shapes are unchanged. |
| `Scenarios.CursorAtFloatHeight` | components/GameScene.tsx:48-50 | The hand at `(0.5, 0)` with a 10×5 view gives the cursor `(0, 2.5, 0)`. |
| `Scenarios.GrabAtCursor` | components/GameScene.tsx:57-64 | Pinching exactly on an unmatched shape grabs it, without moving it. |
| `Scenarios.GrabWithEmptyHeld` | components/GameScene.tsx:61 | A held empty id is falsy, so it does not block a grab: pinching on an unmatched shape grabs it and replaces the held id. |
| `Scenarios.ReleaseInsideZone` | components/GameScene.tsx:84-93 | A red shape released 1.0 from the red centre is matched at `(-4, 0.5, 0)`, and the score becomes 10. |
| `Scenarios.ReleaseOutsideZone` | components/GameScene.tsx:96-101 | A red shape at `(-2.8, 1, 1.6)`, 2.0 from the red centre in the horizontal plane, floats at `(-2.8, 2.5, 0)`, and the score is unchanged. |

## Findings

| source | as written | input that shows it | evidently intended | confidence | as-written member | corrected member |
|---|---|---|---|---|---|---|
| components/GameScene.tsx:122-127 | The effect depends on `shapes`, and every tick with a hand present stores a new list. So while the session is finished, every frame queues a 2000 ms timeout. Each timeout installs a fresh population without checking the state it fires in. | Finish a session with the hand in view. After the first reset, pinch a new shape within two seconds. A timeout queued in a later frame then replaces the population: the held id stays `shape-k`, but the new `shape-k` is not flagged grabbed, and the next pinching tick drags it. | Exactly one reset per finished session. Equivalently, the reset installs the fresh population only while every shape is still matched, and at that point nothing is held. | medium, not executed | `Population.TimedReset`, `Population.TimedResetCounterexample` | `Population.AfterReset`, `Population.ResetKeepsExclusive` |

## Left out

- Camera and detection lifecycle (`start`, `stop`, `processFrame`, the `Hands` construction and options, services/handTracking.ts:45-67 and 103-159): browser I/O and a foreign library.
- Rendering and the React tree: `App.tsx`, `HandCursor.tsx`, `GameObjects.tsx` and `ZoneFloor.tsx`. This includes lerp smoothing and `MOVEMENT_SMOOTHING`. It is presentation over floating point and does not feed back into the state.
- The 2000 ms `setTimeout` and the React effect scheduling. Only the all-matched predicate, the guarded replacement and the unguarded timeout body are modelled; the model has no timers.
- The state updater passed to `setShapes` mutates the held-id ref and calls `onScore`. React may invoke an updater twice in development mode, and that double invocation is not modelled.
- IEEE-754 rounding: coordinates are exact reals, so a comparison that rounding would flip at a boundary is not captured.
- Fields of the detector's `Results` other than `multiHandLandmarks` (the camera image) are not read by the core and are not modelled.

=== FILE: constants.dfy ===
/** The fixed configuration of the game (constants.ts, and the literals that
    GameScene.tsx writes inline). */
module Constants {
  import opened Types

  /** Fingertip distance below which the hand counts as pinching. */
  const PinchThreshold: real := 0.08
  /** Height at which loose shapes float. */
  const ObjectYFloat: real := 2.5
  /** Height at which matched shapes rest on the floor. */
  const ObjectYFloor: real := 0.5
  const ZoneRadius: real := 1.8

  /** One zone per colour, centred 0.1 above the floor. */
  const Zones: seq<Zone> := [
    Zone(Red, Vec3(-4.0, 0.1, 0.0), ZoneRadius),
    Zone(Green, Vec3(0.0, 0.1, 0.0), ZoneRadius),
    Zone(Blue, Vec3(4.0, 0.1, 0.0), ZoneRadius)
  ]

  /** Cursor-to-shape distance below which a pinch grabs the shape. */
  const GrabRadius: real := 1.5
  /** Points added to the score by one successful placement. */
  const ScoreIncrement: nat := 10
  /** Number of shapes in a fresh population. */
  const PopulationSize: nat := 12
}

=== FILE: exclusivity.dfy ===
/** What a tick does as a whole, stated independently of the per-shape code:
    the grab picks the first grabbable shape in list order, a carry moves only
    the held shape, a release lets go of the held shape only. From these
    follows the session invariant: at most one shape is grabbed, and it is the
    one whose id is held. */
module Exclusivity {
  import opened Types
  import opened Constants
  import opened GameLogic

  /** Ids are pairwise distinct and non-empty (a held "" would read as free). */
  predicate WellFormed(shapes: seq<Shape>) {
    && (forall i :: 0 <= i < |shapes| ==> shapes[i].id != "")
    && (forall i, j :: 0 <= i < j < |shapes| ==> shapes[i].id != shapes[j].id)
  }

  /** The `isGrabbed` flags agree with the held id, and no matched shape is grabbed. */
  predicate Exclusive(shapes: seq<Shape>, held: Held) {
    && (forall i :: 0 <= i < |shapes| && shapes[i].isGrabbed ==>
          held == Some(shapes[i].id) && !shapes[i].isMatched)
    && (held.Some? ==> exists i :: 0 <= i < |shapes| && shapes[i].id == held.value && shapes[i].isGrabbed)
  }

  /** `k` is the first shape in list order that the cursor may grab. */
  predicate FirstGrabbable(shapes: seq<Shape>, cursor: Vec3, k: nat) {
    && k < |shapes|
    && Grabbable(shapes[k], cursor)
    && forall j :: 0 <= j < k ==> !Grabbable(shapes[j], cursor)
  }

  /** `k` is the first unmatched shape carrying id `h`. */
  predicate FirstHolder(shapes: seq<Shape>, h: string, k: nat) {
    && k < |shapes|
    && !shapes[k].isMatched && shapes[k].id == h
    && forall j :: 0 <= j < k ==> shapes[j].isMatched || shapes[j].id != h
  }

  /** Updating element `k` of a sequence is updating element `k - 1` of its
      tail and putting the head back in front. */
  lemma UpdateUnderHead<T>(s: seq<T>, k: nat, x: T)
    requires 0 < k < |s|
    ensures [s[0]] + s[1..][k - 1 := x] == s[k := x]
  {
    var lhs := [s[0]] + s[1..][k - 1 := x];
    assert forall i :: 0 <= i < |s| ==> lhs[i] == s[k := x][i];
  }

  /** With a non-empty id held and the hand pinching, the shape holding the id
      follows the cursor and nothing else changes. */
  lemma {:induction false} CarrySweep(shapes: seq<Shape>, h: string, cursor: Vec3, landing: Landing)
    requires h != ""
    ensures var r := StepShapes(shapes, Some(h), cursor, true, landing);
            && r.held == Some(h)
            && r.events == 0
            && |r.shapes| == |shapes|
            && forall i :: 0 <= i < |shapes| ==>
                 r.shapes[i] == (if !shapes[i].isMatched && shapes[i].id == h
                                 then shapes[i].(position := cursor) else shapes[i])
    decreases |shapes|
  {
    if |shapes| > 0 {
      CarrySweep(shapes[1..], h, cursor, landing);
      var r := StepShapes(shapes, Some(h), cursor, true, landing);
      var rest := StepShapes(shapes[1..], Some(h), cursor, true, landing);
      assert r.shapes[1..] == rest.shapes;
      forall i | 1 <= i < |shapes|
        ensures r.shapes[i] == (if !shapes[i].isMatched && shapes[i].id == h
                                then shapes[i].(position := cursor) else shapes[i])
      {
        assert r.shapes[i] == rest.shapes[i - 1];
        assert shapes[1..][i - 1] == shapes[i];
      }
    }
  }

  /** With nothing held and the hand pinching, the first grabbable shape is
      flagged grabbed (its position unchanged) and its id becomes held; every
      other shape, before or after it, is unchanged. */
  lemma {:induction false} GrabSweep(shapes: seq<Shape>, cursor: Vec3, landing: Landing, k: nat)
    requires WellFormed(shapes) && FirstGrabbable(shapes, cursor, k)
    ensures var r := StepShapes(shapes, None, cursor, true, landing);
            && r.shapes == shapes[k := shapes[k].(isGrabbed := true)]
            && r.held == Some(shapes[k].id)
            && r.events == 0
    decreases |shapes|
  {
    if k == 0 {
      GrabFirst(shapes, cursor, landing);
      assert [shapes[0].(isGrabbed := true)] + shapes[1..] == shapes[0 := shapes[0].(isGrabbed := true)];
    } else {
      var tail := shapes[1..];
      assert WellFormed(tail) by {
        forall i | 0 <= i < |tail| ensures tail[i] == shapes[i + 1] { }
      }
      assert FirstGrabbable(tail, cursor, k - 1) by {
        forall j | 0 <= j < k - 1 ensures !Grabbable(tail[j], cursor) {
          assert tail[j] == shapes[j + 1];
        }
      }
      GrabSweep(tail, cursor, landing, k - 1);
      GrabStepPast(shapes, cursor, landing);
      assert tail[k - 1] == shapes[k];
      UpdateUnderHead(shapes, k, shapes[k].(isGrabbed := true));
    }
  }

  /** The base case of `GrabSweep`: the first shape is grabbed, and the rest
      is carried past unchanged. */
  lemma GrabFirst(shapes: seq<Shape>, cursor: Vec3, landing: Landing)
    requires WellFormed(shapes) && |shapes| > 0 && Grabbable(shapes[0], cursor)
    ensures var r := StepShapes(shapes, None, cursor, true, landing);
            && r.shapes == [shapes[0].(isGrabbed := true)] + shapes[1..]
            && r.held == Some(shapes[0].id)
            && r.events == 0
  {
    var h := shapes[0].id;
    var tail := shapes[1..];
    assert StepShape(shapes[0], None, cursor, true, landing) == ShapeStep(shapes[0].(isGrabbed := true), Some(h), false);
    CarrySweep(tail, h, cursor, landing);
    var rest := StepShapes(tail, Some(h), cursor, true, landing);
    forall i | 0 <= i < |tail| ensures rest.shapes[i] == tail[i] {
      assert tail[i] == shapes[i + 1];
    }
    assert rest.shapes == tail;
  }

  /** The step case of `GrabSweep`: a first shape out of reach passes through
      unchanged and leaves nothing held for the rest. */
  lemma GrabStepPast(shapes: seq<Shape>, cursor: Vec3, landing: Landing)
    requires |shapes| > 0 && !Grabbable(shapes[0], cursor)
    ensures StepShapes(shapes, None, cursor, true, landing)
         == var rest := StepShapes(shapes[1..], None, cursor, true, landing);
            Sweep([shapes[0]] + rest.shapes, rest.held, rest.events)
  {
    assert StepShape(shapes[0], None, cursor, true, landing) == ShapeStep(shapes[0], None, false);
  }

  /** With nothing held and the hand pinching but no shape grabbable, the
      tick changes nothing. */
  lemma {:induction false} NoGrabSweep(shapes: seq<Shape>, cursor: Vec3, landing: Landing)
    requires forall k :: 0 <= k < |shapes| ==> !Grabbable(shapes[k], cursor)
    ensures StepShapes(shapes, None, cursor, true, landing) == Sweep(shapes, None, 0)
    decreases |shapes|
  {
    if |shapes| > 0 {
      var tail := shapes[1..];
      assert forall k :: 0 <= k < |tail| ==> !Grabbable(tail[k], cursor) by {
        forall k | 0 <= k < |tail| ensures !Grabbable(tail[k], cursor) {
          assert tail[k] == shapes[k + 1];
        }
      }
      NoGrabSweep(tail, cursor, landing);
      assert [shapes[0]] + tail == shapes;
    }
  }

  /** With id `h` held and the hand open, the first unmatched shape holding
      `h` is released, with one score event exactly when the release scores,
      and the held id cleared; every other shape is unchanged. */
  lemma {:induction false} ReleaseSweep(shapes: seq<Shape>, h: string, cursor: Vec3, landing: Landing, k: nat)
    requires FirstHolder(shapes, h, k)
    ensures var r := StepShapes(shapes, Some(h), cursor, false, landing);
            && r.shapes == shapes[k := Release(shapes[k], landing(shapes[k])).shape]
            && r.held == None
            && r.events == (if Release(shapes[k], landing(shapes[k])).scored then 1 else 0)
    decreases |shapes|
  {
    if k == 0 {
      ReleaseFirst(shapes, cursor, landing);
      var released := Release(shapes[0], landing(shapes[0])).shape;
      assert [released] + shapes[1..] == shapes[0 := released];
    } else {
      var tail := shapes[1..];
      assert FirstHolder(tail, h, k - 1) by {
        forall j | 0 <= j < k - 1 ensures tail[j].isMatched || tail[j].id != h {
          assert tail[j] == shapes[j + 1];
        }
      }
      ReleaseSweep(tail, h, cursor, landing, k - 1);
      StepPast(shapes, h, cursor, landing);
      UpdateUnderHead(shapes, k, Release(shapes[k], landing(shapes[k])).shape);
    }
  }

  /** The step case of `ReleaseSweep`: a first shape that does not hold `h`
      passes through unchanged and leaves `h` held for the rest. */
  lemma StepPast(shapes: seq<Shape>, h: string, cursor: Vec3, landing: Landing)
    requires |shapes| > 0 && (shapes[0].isMatched || shapes[0].id != h)
    ensures StepShapes(shapes, Some(h), cursor, false, landing)
         == var rest := StepShapes(shapes[1..], Some(h), cursor, false, landing);
            Sweep([shapes[0]] + rest.shapes, rest.held, rest.events)
  {
    assert StepShape(shapes[0], Some(h), cursor, false, landing) == ShapeStep(shapes[0], Some(h), false);
  }

  /** The base case of `ReleaseSweep`: the held shape comes first. */
  lemma ReleaseFirst(shapes: seq<Shape>, cursor: Vec3, landing: Landing)
    requires |shapes| > 0 && !shapes[0].isMatched
    ensures var r := StepShapes(shapes, Some(shapes[0].id), cursor, false, landing);
            && r.held == None
            && r.shapes == [Release(shapes[0], landing(shapes[0])).shape] + shapes[1..]
            && r.events == (if Release(shapes[0], landing(shapes[0])).scored then 1 else 0)
  {
    var first := Release(shapes[0], landing(shapes[0]));
    assert StepShape(shapes[0], Some(shapes[0].id), cursor, false, landing) == first;
    assert StepShapes(shapes[1..], None, cursor, false, landing) == Sweep(shapes[1..], None, 0);
  }

  /** With id `h` held and the hand open but no unmatched shape holding `h`,
      the tick changes nothing, and `h` stays held. */
  lemma {:induction false} NoHolderSweep(shapes: seq<Shape>, h: string, cursor: Vec3, landing: Landing)
    requires forall k :: 0 <= k < |shapes| ==> shapes[k].isMatched || shapes[k].id != h
    ensures StepShapes(shapes, Some(h), cursor, false, landing) == Sweep(shapes, Some(h), 0)
    decreases |shapes|
  {
    if |shapes| > 0 {
      var tail := shapes[1..];
      assert forall k :: 0 <= k < |tail| ==> tail[k].isMatched || tail[k].id != h by {
        forall k | 0 <= k < |tail| ensures tail[k].isMatched || tail[k].id != h {
          assert tail[k] == shapes[k + 1];
        }
      }
      NoHolderSweep(tail, h, cursor, landing);
      assert [shapes[0]] + tail == shapes;
    }
  }

  /** Under the invariant, at most one shape is grabbed. */
  lemma AtMostOneGrabbed(shapes: seq<Shape>, held: Held, i: nat, j: nat)
    requires WellFormed(shapes) && Exclusive(shapes, held)
    requires i < |shapes| && j < |shapes| && shapes[i].isGrabbed && shapes[j].isGrabbed
    ensures i == j
  {
    assert shapes[i].id == shapes[j].id;
  }

  /** A grab keeps the invariant: nothing was grabbed before, and afterwards
      only the newly held shape is. */
  lemma GrabKeepsExclusive(shapes: seq<Shape>, cursor: Vec3, landing: Landing)
    requires WellFormed(shapes) && Exclusive(shapes, None)
    ensures var r := StepShapes(shapes, None, cursor, true, landing);
            Exclusive(r.shapes, r.held)
  {
    var r := StepShapes(shapes, None, cursor, true, landing);
    if k: nat :| FirstGrabbable(shapes, cursor, k) {
      GrabSweep(shapes, cursor, landing, k);
      forall i | 0 <= i < |shapes| && i != k ensures !r.shapes[i].isGrabbed {
        assert r.shapes[i] == shapes[i];
      }
      assert r.shapes[k].isGrabbed;
    } else {
      forall k | 0 <= k < |shapes| ensures !Grabbable(shapes[k], cursor) {
        if Grabbable(shapes[k], cursor) {
          FirstGrabbableExists(shapes, cursor, k);
        }
      }
      NoGrabSweep(shapes, cursor, landing);
    }
  }

  /** A carry keeps the invariant: only positions change. */
  lemma CarryKeepsExclusive(shapes: seq<Shape>, h: string, cursor: Vec3, landing: Landing)
    requires WellFormed(shapes) && Exclusive(shapes, Some(h))
    ensures var r := StepShapes(shapes, Some(h), cursor, true, landing);
            Exclusive(r.shapes, r.held)
  {
    var r := StepShapes(shapes, Some(h), cursor, true, landing);
    var w :| 0 <= w < |shapes| && shapes[w].id == h && shapes[w].isGrabbed;
    assert h != "";
    CarrySweep(shapes, h, cursor, landing);
    forall i | 0 <= i < |shapes|
      ensures r.shapes[i].isGrabbed == shapes[i].isGrabbed
      ensures r.shapes[i].isMatched == shapes[i].isMatched
      ensures r.shapes[i].id == shapes[i].id
    {
    }
    assert r.shapes[w].isGrabbed;
  }

  /** A release keeps the invariant: the held shape is let go and the held id
      cleared, so no shape is grabbed afterwards. */
  lemma ReleaseKeepsExclusive(shapes: seq<Shape>, h: string, cursor: Vec3, landing: Landing)
    requires WellFormed(shapes) && Exclusive(shapes, Some(h))
    ensures var r := StepShapes(shapes, Some(h), cursor, false, landing);
            r.held == None && forall i :: 0 <= i < |r.shapes| ==> !r.shapes[i].isGrabbed
  {
    var r := StepShapes(shapes, Some(h), cursor, false, landing);
    var w :| 0 <= w < |shapes| && shapes[w].id == h && shapes[w].isGrabbed;
    assert FirstHolder(shapes, h, w);
    ReleaseSweep(shapes, h, cursor, landing, w);
    forall i | 0 <= i < |shapes| ensures !r.shapes[i].isGrabbed {
      if i != w {
        assert r.shapes[i] == shapes[i];
        assert shapes[i].id != h;
      }
    }
  }

  /** Every tick keeps ids well formed and the grab flags in agreement with
      the held id. */
  lemma TickPreservesExclusive(g: Game, hand: HandData, width: real, height: real, landing: Landing)
    requires WellFormed(g.shapes) && Exclusive(g.shapes, g.held)
    ensures var r := Tick(g, hand, width, height, landing);
            WellFormed(r.shapes) && Exclusive(r.shapes, r.held)
  {
    var r := Tick(g, hand, width, height, landing);
    assert WellFormed(r.shapes) by {
      forall i | 0 <= i < |r.shapes| ensures r.shapes[i].id == g.shapes[i].id {
        assert SameIdentity(g.shapes[i], r.shapes[i]);
      }
    }
    if hand.isPresent {
      var cursor := Cursor(hand, width, height);
      match g.held
      case None =>
        if hand.isPinching {
          GrabKeepsExclusive(g.shapes, cursor, landing);
        }
      case Some(h) =>
        if hand.isPinching {
          CarryKeepsExclusive(g.shapes, h, cursor, landing);
        } else {
          ReleaseKeepsExclusive(g.shapes, h, cursor, landing);
        }
    }
  }

  /** A grabbable shape guarantees a first grabbable one. */
  lemma FirstGrabbableExists(shapes: seq<Shape>, cursor: Vec3, k: nat)
    requires k < |shapes| && Grabbable(shapes[k], cursor)
    ensures exists f :: FirstGrabbable(shapes, cursor, f)
    decreases k
  {
    if exists j :: 0 <= j < k && Grabbable(shapes[j], cursor) {
      var j :| 0 <= j < k && Grabbable(shapes[j], cursor);
      FirstGrabbableExists(shapes, cursor, j);
    } else {
      assert FirstGrabbable(shapes, cursor, k);
    }
  }
}

=== FILE: game_logic.dfy ===
/** The per-frame interaction state machine (components/GameScene.tsx,
    `GameLogic`'s `useFrame` callback). One tick maps the hand signal to a
    world cursor and walks the shapes in list order, threading the id of the
    held shape: each shape is skipped if matched, else may be grabbed, carried
    or released into its zone. */
module GameLogic {
  import opened Types
  import opened Constants

  /** `grabbedShapeId.current`: the id of the held shape, or null. */
  type Held = Option<string>

  /** `!grabbedShapeId.current`: in JavaScript both null and the empty string
      are falsy, so a held empty id does not block a grab. */
  predicate IsFree(held: Held) {
    held.None? || held.value == ""
  }

  /** The hand mapped to the plane z = 0 of the scene, mirrored horizontally. */
  function Cursor(hand: HandData, width: real, height: real): (c: Vec3)
    ensures c.z == 0.0
    ensures hand.x == 0.5 && hand.y == 0.5 ==> c == Vec3(0.0, 0.0, 0.0)
    ensures width > 0.0 ==> (c.x > 0.0 <==> hand.x < 0.5)
    ensures height > 0.0 ==> (c.y > 0.0 <==> hand.y < 0.5)
  {
    Vec3((0.5 - hand.x) * width, (0.5 - hand.y) * height, 0.0)
  }

  /** The cursor map is linear with scale `width` horizontally and `height`
      vertically, mirrored: moving the hand by dx in the image moves the
      cursor by -dx * width. */
  lemma CursorScale(h1: HandData, h2: HandData, width: real, height: real)
    ensures Cursor(h1, width, height).x - Cursor(h2, width, height).x == (h2.x - h1.x) * width
    ensures Cursor(h1, width, height).y - Cursor(h2, width, height).y == (h2.y - h1.y) * height
  {
  }

  /** `zones.find(z => z.color === c)`: the first zone of colour `c`, if any. */
  function FindZone(zones: seq<Zone>, c: Color): (r: Option<Zone>)
    ensures r.None? <==> forall i :: 0 <= i < |zones| ==> zones[i].color != c
    ensures r.Some? ==> r.value.color == c && r.value in zones
    ensures r.Some? ==> exists k :: 0 <= k < |zones| && zones[k] == r.value
                                   && forall j :: 0 <= j < k ==> zones[j].color != c
  {
    if |zones| == 0 then None
    else if zones[0].color == c then Some(zones[0])
    else FindZone(zones[1..], c)
  }

  /** The zone test of a release: the distance from the shape's position,
      lowered to y = 0, to the zone centre is below the zone radius. */
  predicate InZone(p: Vec3, z: Zone) {
    Dist2(Vec3(p.x, 0.0, p.z), z.position) < Sq(z.radius)
  }

  /** A shape the hand may grab: not matched and within the grab radius. */
  predicate Grabbable(s: Shape, cursor: Vec3) {
    !s.isMatched && Dist2(cursor, s.position) < Sq(GrabRadius)
  }

  /** What one shape's update yields: the new shape, the held id afterwards,
      and whether a score event was emitted. */
  datatype ShapeStep = ShapeStep(shape: Shape, held: Held, scored: bool)

  /** The zone test of a release, as a function of the released shape: where
      it lands if it is dropped inside its colour's zone, or `None`. The sweep
      takes it as a parameter; a tick passes `ZoneLanding`. */
  type Landing = Shape -> Option<Vec3>

  /** The program's zone test: the zone of the shape's colour, if there is
      one, contains the shape's position, and the shape lands on the floor
      at the zone's centre. */
  function ZoneLanding(s: Shape): (spot: Option<Vec3>)
    ensures spot.Some? ==> spot.value.y == ObjectYFloor
    ensures spot.Some? ==> FindZone(Zones, s.color).Some?
  {
    var zone := FindZone(Zones, s.color);
    if zone.Some? && InZone(s.position, zone.value) then
      Some(Vec3(zone.value.position.x, ObjectYFloor, zone.value.position.z))
    else None
  }

  /** The release of the held shape, given where it lands: landed, it is
      matched at the landing spot and scores; otherwise it floats back to
      height 2.5 and depth 0, keeping its x. */
  function Release(s: Shape, spot: Option<Vec3>): (r: ShapeStep)
    ensures r.held == None
    ensures SameIdentity(s, r.shape) && !r.shape.isGrabbed
    ensures r.scored <==> spot.Some?
    ensures spot.Some? ==> r.shape.isMatched && r.shape.position == spot.value
    ensures spot.None? ==> r.shape == s.(isGrabbed := false, position := Vec3(s.position.x, ObjectYFloat, 0.0))
  {
    match spot
    case Some(p) => ShapeStep(s.(isGrabbed := false, isMatched := true, position := p), None, true)
    case None => ShapeStep(s.(isGrabbed := false, position := Vec3(s.position.x, ObjectYFloat, 0.0)), None, false)
  }

  /** The body of the per-shape callback, in the program's branch order. */
  function StepShape(s: Shape, held: Held, cursor: Vec3, pinching: bool, landing: Landing): (r: ShapeStep)
    ensures SameIdentity(s, r.shape)
  {
    if s.isMatched then ShapeStep(s, held, false)
    else if pinching && IsFree(held) && Dist2(cursor, s.position) < Sq(GrabRadius) then
      ShapeStep(s.(isGrabbed := true), Some(s.id), false)
    else if pinching && held == Some(s.id) then
      ShapeStep(s.(position := cursor), held, false)
    else if !pinching && held == Some(s.id) then
      Release(s, landing(s))
    else ShapeStep(s, held, false)
  }

  /** The result of walking the whole list once. */
  datatype Sweep = Sweep(shapes: seq<Shape>, held: Held, events: nat)

  /** `prevShapes.map(...)` with the held id threaded from shape to shape. */
  function StepShapes(shapes: seq<Shape>, held: Held, cursor: Vec3, pinching: bool, landing: Landing): (r: Sweep)
    ensures |r.shapes| == |shapes|
    ensures forall i :: 0 <= i < |shapes| ==> SameIdentity(shapes[i], r.shapes[i])
    ensures forall i :: 0 <= i < |shapes| && shapes[i].isMatched ==> r.shapes[i] == shapes[i]
    ensures r.events <= 1
    ensures pinching ==> r.events == 0
    ensures held.None? && !pinching ==> r == Sweep(shapes, None, 0)
    decreases |shapes|
  {
    if |shapes| == 0 then Sweep([], held, 0)
    else
      var first := StepShape(shapes[0], held, cursor, pinching, landing);
      var rest := StepShapes(shapes[1..], first.held, cursor, pinching, landing);
      Sweep([first.shape] + rest.shapes, rest.held, rest.events + (if first.scored then 1 else 0))
  }

  /** The state the tick owns: the population, the held id and the score. */
  datatype Game = Game(shapes: seq<Shape>, held: Held, score: int)

  /** One frame. An absent hand changes nothing; otherwise every shape is
      updated once and each successful placement adds `ScoreIncrement`. The
      program's frame passes `ZoneLanding` as the zone test. */
  function Tick(g: Game, hand: HandData, width: real, height: real, landing: Landing): (r: Game)
    ensures !hand.isPresent ==> r == g
    ensures |r.shapes| == |g.shapes|
    ensures forall i :: 0 <= i < |g.shapes| ==> SameIdentity(g.shapes[i], r.shapes[i])
    ensures forall i :: 0 <= i < |g.shapes| && g.shapes[i].isMatched ==> r.shapes[i] == g.shapes[i]
    ensures r.score == g.score || r.score == g.score + ScoreIncrement
    ensures hand.isPinching ==> r.score == g.score
  {
    if !hand.isPresent then g
    else
      var sweep := StepShapes(g.shapes, g.held, Cursor(hand, width, height), hand.isPinching, landing);
      Game(sweep.shapes, sweep.held, g.score + ScoreIncrement * sweep.events)
  }
}

=== FILE: hand_tracking.dfy ===
/** The gesture signal extractor: turns one frame of MediaPipe hand landmarks
    into a `HandData` (services/handTracking.ts, `processResults`). The camera
    loop and the detector itself are not part of this model. */
module HandTracking {
  import opened Types
  import opened Constants

  /** One detected landmark, in normalised image coordinates. */
  datatype Landmark = Landmark(x: real, y: real, z: real)

  /** The part of the detector's `Results` the extractor reads:
      `multiHandLandmarks` may be missing altogether. */
  datatype Results = Results(multiHandLandmarks: Option<seq<seq<Landmark>>>)

  /** Reading `.x` of a landmark index the hand does not have throws in the
      program; the model reports it instead. */
  datatype TrackingError = LandmarkMissing

  /** Landmark numbers of the hand-pose model. */
  const IndexTip: nat := 8
  const ThumbTip: nat := 4

  /** The signal delivered when no hand is seen. */
  const NoHand: HandData := HandData(0.0, 0.0, false, false)

  predicate HandDetected(r: Results) {
    r.multiHandLandmarks.Some? && |r.multiHandLandmarks.value| > 0
  }

  /** Squared distance of two landmarks in the image plane; depth is ignored. */
  function PlanarDist2(a: Landmark, b: Landmark): real {
    Sq(a.x - b.x) + Sq(a.y - b.y)
  }

  predicate InUnitSquare(x: real, y: real) {
    0.0 <= x <= 1.0 && 0.0 <= y <= 1.0
  }

  predicate Between(v: real, a: real, b: real) {
    (a <= v <= b) || (b <= v <= a)
  }

  /** The signal of one hand: cursor at the midpoint of index tip and thumb tip,
      pinching when they are closer than the threshold. */
  function HandSignal(hand: seq<Landmark>): (r: Result<HandData, TrackingError>)
    ensures r.Success? <==> |hand| > IndexTip
    ensures r.Success? ==>
              var index, thumb := hand[IndexTip], hand[ThumbTip];
              && r.value.isPresent
              && r.value.x - thumb.x == index.x - r.value.x
              && r.value.y - thumb.y == index.y - r.value.y
              && Between(r.value.x, index.x, thumb.x)
              && Between(r.value.y, index.y, thumb.y)
  {
    if |hand| <= IndexTip then Failure(LandmarkMissing)
    else
      var index, thumb := hand[IndexTip], hand[ThumbTip];
      var x := (index.x + thumb.x) / 2.0;
      var y := (index.y + thumb.y) / 2.0;
      var pinching := PlanarDist2(index, thumb) < Sq(PinchThreshold);
      Success(HandData(x, y, pinching, true))
  }

  /** `processResults`: no hand gives the `NoHand` signal, otherwise only the
      first detected hand is read. */
  function ProcessResults(r: Results): (out: Result<HandData, TrackingError>)
    ensures !HandDetected(r) ==> out == Success(NoHand)
    ensures out.Success? ==> (out.value.isPresent <==> HandDetected(r))
    ensures out.Failure? ==> HandDetected(r) && |r.multiHandLandmarks.value[0]| <= IndexTip
    ensures HandDetected(r) ==> out == HandSignal(r.multiHandLandmarks.value[0])
  {
    if !HandDetected(r) then Success(NoHand)
    else HandSignal(r.multiHandLandmarks.value[0])
  }

  /** The pinch test: the tips are less than 0.08 apart in the image plane,
      that is, their squared planar distance is below 0.0064. */
  lemma PinchRule(hand: seq<Landmark>)
    requires |hand| > IndexTip
    ensures var index, thumb := hand[IndexTip], hand[ThumbTip];
            HandSignal(hand).value.isPinching <==> Sq(index.x - thumb.x) + Sq(index.y - thumb.y) < 0.0064
  {
  }

  /** Hands after the first one never influence the signal. */
  lemma FirstHandOnly(hand: seq<Landmark>, others: seq<seq<Landmark>>, others': seq<seq<Landmark>>)
    ensures ProcessResults(Results(Some([hand] + others)))
         == ProcessResults(Results(Some([hand] + others')))
  {
    assert ([hand] + others)[0] == hand;
    assert ([hand] + others')[0] == hand;
  }

  /** If both fingertips are inside the image, so is the cursor. */
  lemma CursorStaysInImage(hand: seq<Landmark>)
    requires |hand| > IndexTip
    requires InUnitSquare(hand[IndexTip].x, hand[IndexTip].y)
    requires InUnitSquare(hand[ThumbTip].x, hand[ThumbTip].y)
    ensures HandSignal(hand).Success?
    ensures InUnitSquare(HandSignal(hand).value.x, HandSignal(hand).value.y)
  {
  }

  /** Exchanging the index tip and the thumb tip gives the same signal. */
  lemma SwapFingertips(hand: seq<Landmark>)
    requires |hand| > IndexTip
    ensures HandSignal(hand[IndexTip := hand[ThumbTip]][ThumbTip := hand[IndexTip]]) == HandSignal(hand)
  {
    var swapped := hand[IndexTip := hand[ThumbTip]][ThumbTip := hand[IndexTip]];
    assert swapped[IndexTip] == hand[ThumbTip] && swapped[ThumbTip] == hand[IndexTip];
    var a, b := hand[IndexTip], hand[ThumbTip];
    assert Sq(a.x - b.x) == Sq(b.x - a.x);
    assert Sq(a.y - b.y) == Sq(b.y - a.y);
  }

  /** The signal ignores depth: moving either fingertip along z changes
      nothing (a corollary of `HandSignal`'s contract and `PinchRule`, which
      read only x and y). */
  lemma PinchIgnoresDepth(hand: seq<Landmark>, dzIndex: real, dzThumb: real)
    requires |hand| > IndexTip
    ensures var hand' := hand[IndexTip := hand[IndexTip].(z := hand[IndexTip].z + dzIndex)]
                             [ThumbTip := hand[ThumbTip].(z := hand[ThumbTip].z + dzThumb)];
            HandSignal(hand') == HandSignal(hand)
  {
    var hand' := hand[IndexTip := hand[IndexTip].(z := hand[IndexTip].z + dzIndex)]
                     [ThumbTip := hand[ThumbTip].(z := hand[ThumbTip].z + dzThumb)];
    assert hand'[IndexTip].x == hand[IndexTip].x && hand'[IndexTip].y == hand[IndexTip].y;
    assert hand'[ThumbTip].x == hand[ThumbTip].x && hand'[ThumbTip].y == hand[ThumbTip].y;
  }

  /** Fingertips exactly the threshold apart do not pinch; a hair closer do.
      The points are chosen so that double arithmetic gives the same
      distances: 0.08 - 0 is exact, and so is the square root of its square. */
  lemma PinchIsStrict(rest: seq<Landmark>)
    requires |rest| == 9
    ensures var atThreshold := rest[ThumbTip := Landmark(0.0, 0.5, 0.0)][IndexTip := Landmark(0.08, 0.5, 0.0)];
            !HandSignal(atThreshold).value.isPinching
    ensures var inside := rest[ThumbTip := Landmark(0.0, 0.5, 0.0)][IndexTip := Landmark(0.079, 0.5, 0.0)];
            HandSignal(inside).value.isPinching
  {
  }
}

=== FILE: population.dfy ===
/** The session lifecycle (components/GameScene.tsx): `generateShapes` builds a
    fresh population from random draws, and once every shape is matched the
    population is replaced by a fresh one. The draws of `Math.random` are
    supplied by the caller; the 2000 ms timer is not modelled. */
module Population {
  import opened Types
  import opened Constants
  import opened GameLogic
  import opened Exclusivity

  /** The decimal digit of `d`. */
  function DigitChar(d: nat): (c: char)
    requires d < 10
    ensures '0' <= c <= '9'
  {
    ('0' as int + d) as char
  }

  /** The decimal text of `n`, as a template literal `${n}` prints it. */
  function NatToString(n: nat): (s: string)
    ensures |s| >= 1
    ensures n >= 10 ==> |s| >= 2
    ensures AllDigits(s)
    ensures s[0] == '0' ==> n == 0
    decreases n
  {
    if n < 10 then [DigitChar(n)]
    else NatToString(n / 10) + [DigitChar(n % 10)]
  }

  predicate AllDigits(s: string) {
    forall i :: 0 <= i < |s| ==> '0' <= s[i] <= '9'
  }

  function Pow10(k: nat): nat {
    if k == 0 then 1 else 10 * Pow10(k - 1)
  }

  /** The number a digit string denotes, read from the most significant
      digit: the first digit weighs 10^(|s|-1). */
  function Value(s: string): nat
    requires AllDigits(s)
    decreases |s|
  {
    if |s| == 0 then 0
    else (s[0] as int - '0' as int) * Pow10(|s| - 1) + Value(s[1..])
  }

  /** Shifting a digit's weight one decimal place. */
  lemma ShiftDigit(a: int, p: int)
    ensures a * (10 * p) == 10 * (a * p)
  {
  }

  /** Appending a digit shifts the value one decimal place. */
  lemma {:induction false} ValueSnoc(s: string, d: nat)
    requires AllDigits(s) && d < 10
    ensures AllDigits(s + [DigitChar(d)])
    ensures Value(s + [DigitChar(d)]) == 10 * Value(s) + d
    decreases |s|
  {
    var t := s + [DigitChar(d)];
    if |s| > 0 {
      assert t[1..] == s[1..] + [DigitChar(d)];
      ValueSnoc(s[1..], d);
      var lead, p := s[0] as int - '0' as int, Pow10(|s| - 1);
      assert t[0] == s[0];
      assert Pow10(|t| - 1) == 10 * p;
      assert Value(t) == lead * Pow10(|t| - 1) + Value(t[1..]);
      ShiftDigit(lead, p);
    } else {
      assert t[1..] == [];
    }
  }

  /** `NatToString` prints exactly the decimal digits of `n`. */
  lemma {:induction false} NatToStringValue(n: nat)
    ensures Value(NatToString(n)) == n
    decreases n
  {
    if n < 10 {
      assert NatToString(n)[1..] == [];
    } else {
      NatToStringValue(n / 10);
      ValueSnoc(NatToString(n / 10), n % 10);
    }
  }

  /** Different numbers print differently. */
  lemma {:induction false} NatToStringInjective(a: nat, b: nat)
    requires NatToString(a) == NatToString(b)
    ensures a == b
    decreases a
  {
    var s := NatToString(a);
    if a >= 10 && b >= 10 {
      assert NatToString(a / 10) == s[..|s| - 1] == NatToString(b / 10);
      NatToStringInjective(a / 10, b / 10);
      assert DigitChar(a % 10) == s[|s| - 1] == DigitChar(b % 10);
    } else if a < 10 && b < 10 {
      assert DigitChar(a) == s[0] == DigitChar(b);
    }
  }

  /** `shape-${i}`: the prefix `shape-` followed by the decimal digits of
      `i`, without leading zeros. */
  function ShapeId(i: nat): (id: string)
    ensures |id| >= 7 && id[..6] == "shape-"
    ensures AllDigits(id[6..]) && (id[6] == '0' ==> i == 0)
  {
    "shape-" + NatToString(i)
  }

  /** The two-digit ids of the population print as expected. */
  lemma ShapeIdTen()
    ensures ShapeId(10) == "shape-10" && ShapeId(11) == "shape-11"
  {
    assert NatToString(10) == NatToString(1) + [DigitChar(0)];
    assert NatToString(11) == NatToString(1) + [DigitChar(1)];
  }

  /** Generated ids are never empty and never repeat. */
  lemma ShapeIdsDistinct()
    ensures forall i: nat :: ShapeId(i) != ""
    ensures forall i: nat, j: nat :: ShapeId(i) == ShapeId(j) ==> i == j
  {
    forall i: nat, j: nat | ShapeId(i) == ShapeId(j) ensures i == j {
      assert NatToString(i) == ShapeId(i)[6..] == ShapeId(j)[6..] == NatToString(j);
      NatToStringInjective(i, j);
    }
  }

  /** The five `Math.random()` values one shape consumes, in the order the
      object literal evaluates them: kind, colour, x, y, z. */
  datatype Draws = Draws(kind: real, color: real, x: real, y: real, z: real)

  predicate Unit(r: real) {
    0.0 <= r < 1.0
  }

  /** What `Math.random` guarantees of every value. */
  predicate ValidDraws(d: Draws) {
    Unit(d.kind) && Unit(d.color) && Unit(d.x) && Unit(d.y) && Unit(d.z)
  }

  /** `Math.floor(r * 3)`: an index into a three-element list. */
  function PickOfThree(r: real): (k: nat)
    requires Unit(r)
    ensures k < 3
    ensures k as real <= 3.0 * r < k as real + 1.0
  {
    (r * 3.0).Floor
  }

  /** `types[Math.floor(r * 3)]`: each kind takes a third of the unit interval. */
  function KindOf(r: real): (k: Kind)
    requires Unit(r)
    ensures k == Cube <==> 3.0 * r < 1.0
    ensures k == Tetrahedron <==> 3.0 * r >= 2.0
  {
    [Cube, Sphere, Tetrahedron][PickOfThree(r)]
  }

  /** `colors[Math.floor(r * 3)]`: each colour takes a third of the unit interval. */
  function ColorOf(r: real): (c: Color)
    requires Unit(r)
    ensures c == Red <==> 3.0 * r < 1.0
    ensures c == Blue <==> 3.0 * r >= 2.0
  {
    [Red, Green, Blue][PickOfThree(r)]
  }

  /** The spawning box: x in [-4, 4), y in [2.5, 3.5), z in [-1, 1). */
  predicate InSpawnBox(p: Vec3) {
    -4.0 <= p.x < 4.0 && 2.5 <= p.y < 3.5 && -1.0 <= p.z < 1.0
  }

  /** The shape `generateShapes` builds at index `i`: its id from the index,
      its kind and colour from their draws, and a position in the spawning box
      from which the three position draws can be read back. */
  function NewShape(i: nat, d: Draws): (s: Shape)
    requires ValidDraws(d)
    ensures s.id == ShapeId(i) && s.kind == KindOf(d.kind) && s.color == ColorOf(d.color)
    ensures InSpawnBox(s.position)
    ensures d.x == s.position.x / 8.0 + 0.5
    ensures d.y == s.position.y - ObjectYFloat
    ensures d.z == s.position.z / 2.0 + 0.5
    ensures !s.isMatched && !s.isGrabbed
  {
    Shape(ShapeId(i), KindOf(d.kind), ColorOf(d.color),
          Vec3((d.x - 0.5) * 8.0, ObjectYFloat + d.y, (d.z - 0.5) * 2.0),
          false, false)
  }

  /** `generateShapes(count)`, given one set of draws per shape. */
  function GenerateShapes(count: nat, draws: seq<Draws>): (r: seq<Shape>)
    requires |draws| == count
    requires forall i :: 0 <= i < count ==> ValidDraws(draws[i])
    ensures |r| == count
    ensures forall i :: 0 <= i < count ==> r[i].id == ShapeId(i)
    ensures WellFormed(r)
    ensures forall i :: 0 <= i < count ==> !r[i].isMatched && !r[i].isGrabbed
    ensures forall i :: 0 <= i < count ==> InSpawnBox(r[i].position)
    ensures forall i :: 0 <= i < count ==> r[i] == NewShape(i, draws[i])
  {
    ShapeIdsDistinct();
    seq(count, i requires 0 <= i < count => NewShape(i, draws[i]))
  }

  /** Every point of the spawning box is where some valid draws put a new
      shape, so the box is exactly the range of the spawn position. */
  lemma SpawnBoxCovered(p: Vec3)
    requires InSpawnBox(p)
    ensures exists d :: ValidDraws(d) && NewShape(0, d).position == p
  {
    var d := Draws(0.0, 0.0, p.x / 8.0 + 0.5, p.y - ObjectYFloat, p.z / 2.0 + 0.5);
    assert ValidDraws(d);
    assert NewShape(0, d).position == p;
  }

  /** The definition of `shapes.every(s => s.isMatched)`, the condition that
      schedules a reset; true of the empty list, as `every` is. */
  predicate AllMatched(shapes: seq<Shape>) {
    forall i :: 0 <= i < |shapes| ==> shapes[i].isMatched
  }

  /** The population after the reset effect has run: a fresh population of
      `PopulationSize` shapes when every shape is matched, else the same one. */
  function AfterReset(shapes: seq<Shape>, draws: seq<Draws>): (r: seq<Shape>)
    requires |draws| == PopulationSize
    requires forall i :: 0 <= i < |draws| ==> ValidDraws(draws[i])
    ensures !AllMatched(shapes) ==> r == shapes
    ensures AllMatched(shapes) ==>
              |r| == PopulationSize && forall i :: 0 <= i < |r| ==> !r[i].isMatched && !r[i].isGrabbed
  {
    if AllMatched(shapes) then GenerateShapes(PopulationSize, draws) else shapes
  }

  /** A fresh non-empty population does not immediately schedule another reset. */
  lemma FreshNotAllMatched(count: nat, draws: seq<Draws>)
    requires count > 0 && |draws| == count
    requires forall i :: 0 <= i < count ==> ValidDraws(draws[i])
    ensures !AllMatched(GenerateShapes(count, draws))
  {
    assert !GenerateShapes(count, draws)[0].isMatched;
  }

  /** A fresh population satisfies the session invariant with nothing held. */
  lemma FreshIsExclusive(count: nat, draws: seq<Draws>)
    requires |draws| == count
    requires forall i :: 0 <= i < count ==> ValidDraws(draws[i])
    ensures WellFormed(GenerateShapes(count, draws))
    ensures Exclusive(GenerateShapes(count, draws), None)
  {
  }

  /** While every shape is matched (the reset is pending), ticks change neither
      the population nor the score. */
  lemma AllMatchedIsFrozen(g: Game, hand: HandData, width: real, height: real, landing: Landing)
    requires AllMatched(g.shapes)
    ensures Tick(g, hand, width, height, landing).shapes == g.shapes
    ensures Tick(g, hand, width, height, landing).score == g.score
  {
    if hand.isPresent && !hand.isPinching && g.held.Some? {
      NoHolderSweep(g.shapes, g.held.value, Cursor(hand, width, height), landing);
    }
  }

  /** Under the invariant, nothing is held once every shape is matched, so the
      reset hands the fresh population over with a consistent held id. */
  lemma ResetKeepsExclusive(g: Game, draws: seq<Draws>)
    requires |draws| == PopulationSize
    requires forall i :: 0 <= i < |draws| ==> ValidDraws(draws[i])
    requires WellFormed(g.shapes) && Exclusive(g.shapes, g.held)
    ensures AllMatched(g.shapes) ==> g.held == None
    ensures WellFormed(AfterReset(g.shapes, draws))
    ensures Exclusive(AfterReset(g.shapes, draws), g.held)
  {
    if g.held.Some? {
      var w :| 0 <= w < |g.shapes| && g.shapes[w].id == g.held.value && g.shapes[w].isGrabbed;
      assert !g.shapes[w].isMatched;
    }
  }

  /** The timeout callback of the reset effect as the program writes it: it
      installs a fresh population without looking at the state it fires in.
      The effect runs after every render whose population is all matched, and
      each tick renders a new list, so one finished session queues a timeout
      per frame and they keep firing for up to two seconds after the first
      reset, when the user may already hold a shape of the new population. */
  function TimedReset(g: Game, draws: seq<Draws>): (r: Game)
    requires |draws| == PopulationSize
    requires forall i :: 0 <= i < |draws| ==> ValidDraws(draws[i])
    ensures r.held == g.held && r.score == g.score
    ensures |r.shapes| == PopulationSize
    ensures forall i :: 0 <= i < |r.shapes| ==> !r.shapes[i].isGrabbed && !r.shapes[i].isMatched
  {
    Game(GenerateShapes(PopulationSize, draws), g.held, g.score)
  }

  /** If a shape is held when a queued timeout fires, the held id no longer
      names a grabbed shape: the flags and the held id disagree, and the next
      pinching tick carries an unflagged shape of the new population. */
  lemma TimedResetWhileHolding(g: Game, draws: seq<Draws>)
    requires |draws| == PopulationSize
    requires forall i :: 0 <= i < |draws| ==> ValidDraws(draws[i])
    requires g.held.Some?
    ensures !Exclusive(TimedReset(g, draws).shapes, g.held)
  {
  }

  /** A depth in [-1, 1) is within one unit of the plane z = 0. */
  lemma UnitDepthSquare(z: real)
    requires -1.0 <= z < 1.0
    ensures Sq(0.0 - z) <= 1.0
  {
    var a := if z >= 0.0 then z else -z;
    assert 0.0 <= a <= 1.0;
    assert Sq(0.0 - z) == a * a;
    assert a * a <= a * 1.0;
  }

  /** A reachable instance: a fresh population whose first shape is grabbed
      by a pinch with the cursor on the plane z = 0 (where every tick puts
      it) right in front of that shape, after which a queued timeout fires. */
  lemma TimedResetCounterexample(draws: seq<Draws>, landing: Landing)
    requires |draws| == PopulationSize
    requires forall i :: 0 <= i < |draws| ==> ValidDraws(draws[i])
    ensures var shapes := GenerateShapes(PopulationSize, draws);
            var p := shapes[0].position;
            var sweep := StepShapes(shapes, None, Vec3(p.x, p.y, 0.0), true, landing);
            var grabbed := Game(sweep.shapes, sweep.held, 0);
            && Exclusive(grabbed.shapes, grabbed.held)
            && !Exclusive(TimedReset(grabbed, draws).shapes, grabbed.held)
  {
    var shapes := GenerateShapes(PopulationSize, draws);
    var p := shapes[0].position;
    var cursor := Vec3(p.x, p.y, 0.0);
    UnitDepthSquare(p.z);
    assert Dist2(cursor, p) == Sq(0.0 - p.z);
    assert FirstGrabbable(shapes, cursor, 0);
    GrabSweep(shapes, cursor, landing, 0);
    GrabKeepsExclusive(shapes, cursor, landing);
    var sweep := StepShapes(shapes, None, cursor, true, landing);
    TimedResetWhileHolding(Game(sweep.shapes, sweep.held, 0), draws);
  }
}

=== FILE: scenarios.dfy ===
/** Whole-tick consequences of the sweep lemmas, the zone table written out,
    and worked grab and release examples. */
module Scenarios {
  import opened Types
  import opened Constants
  import opened GameLogic
  import opened Exclusivity

  /** Zone centres along x, by colour. */
  function ZoneX(c: Color): real {
    match c
    case Red => -4.0
    case Green => 0.0
    case Blue => 4.0
  }

  /** Every colour has a zone, and the release test against it compares the
      squared distance from (px, 0, pz) to (zx, 0.1, 0) with 1.8 squared. */
  lemma ZoneTestExplicit(c: Color, p: Vec3)
    ensures FindZone(Zones, c).Some?
    ensures FindZone(Zones, c).value.position == Vec3(ZoneX(c), 0.1, 0.0)
    ensures InZone(p, FindZone(Zones, c).value) <==> Sq(p.x - ZoneX(c)) + 0.01 + Sq(p.z) < 3.24
  {
    assert Zones[0].color == Red && Zones[1].color == Green && Zones[2].color == Blue;
  }

  /** A shape lands exactly when the zone test of its colour's zone passes,
      and then on the floor at that zone's centre. */
  lemma LandingSpot(s: Shape)
    ensures FindZone(Zones, s.color).Some?
    ensures ZoneLanding(s).Some? <==> InZone(s.position, FindZone(Zones, s.color).value)
    ensures ZoneLanding(s).Some? ==> ZoneLanding(s).value == Vec3(ZoneX(s.color), ObjectYFloor, 0.0)
  {
    ZoneTestExplicit(s.color, s.position);
  }

  /** Opening the hand while holding a shape clears the held id and releases
      exactly that shape; the score goes up by `ScoreIncrement` exactly when
      the release scores. */
  lemma ReleaseTick(g: Game, hand: HandData, width: real, height: real, landing: Landing, w: nat)
    requires WellFormed(g.shapes) && Exclusive(g.shapes, g.held)
    requires hand.isPresent && !hand.isPinching
    requires w < |g.shapes| && g.shapes[w].isGrabbed
    ensures var r := Tick(g, hand, width, height, landing);
            && r.held == None
            && r.shapes[w] == Release(g.shapes[w], landing(g.shapes[w])).shape
            && (r.score == g.score + ScoreIncrement <==> landing(g.shapes[w]).Some?)
            && (r.score == g.score <==> landing(g.shapes[w]).None?)
            && forall i :: 0 <= i < |g.shapes| && i != w ==> r.shapes[i] == g.shapes[i]
  {
    var s := g.shapes[w];
    var h := s.id;
    assert g.held == Some(h);
    assert FirstHolder(g.shapes, h, w) by {
      forall j | 0 <= j < w ensures g.shapes[j].isMatched || g.shapes[j].id != h {
        assert g.shapes[j].id != g.shapes[w].id;
      }
    }
    ReleaseSweep(g.shapes, h, Cursor(hand, width, height), landing, w);
  }

  /** A hand at the centre-top of the image with a 10 by 5 view puts the
      cursor at (0, 2.5, 0). */
  lemma CursorAtFloatHeight()
    ensures Cursor(HandData(0.5, 0.0, true, true), 10.0, 5.0) == Vec3(0.0, ObjectYFloat, 0.0)
  {
  }

  /** Pinching right on an unmatched shape (distance 0) grabs it, leaving its
      position alone. */
  lemma GrabAtCursor(s: Shape, cursor: Vec3, landing: Landing)
    requires !s.isMatched && s.id != "" && s.position == cursor
    ensures StepShapes([s], None, cursor, true, landing) == Sweep([s.(isGrabbed := true)], Some(s.id), 0)
  {
    assert FirstGrabbable([s], cursor, 0);
    GrabSweep([s], cursor, landing, 0);
    assert [s][0 := s.(isGrabbed := true)] == [s.(isGrabbed := true)];
  }

  /** An empty held id reads as nothing held (JavaScript falsiness), so a
      pinch grabs a shape within reach; this is why the single-grab invariant
      needs non-empty ids. */
  lemma GrabWithEmptyHeld(s: Shape, cursor: Vec3, landing: Landing)
    requires !s.isMatched && s.id != "" && s.position == cursor
    ensures StepShapes([s], Some(""), cursor, true, landing) == Sweep([s.(isGrabbed := true)], Some(s.id), 0)
  {
    assert Dist2(cursor, s.position) < Sq(GrabRadius);
    assert StepShapes([s][1..], Some(s.id), cursor, true, landing) == Sweep([], Some(s.id), 0);
  }

  /** A red shape released 1.0 from the red zone's centre is matched, snapped
      to (-4, 0.5, 0), and scores 10. */
  lemma ReleaseInsideZone()
    ensures var s := Shape("shape-0", Sphere, Red, Vec3(-3.0, 1.0, 0.0), false, true);
            var g := Game([s], Some("shape-0"), 0);
            Tick(g, HandData(0.2, 0.7, false, true), 10.0, 5.0, ZoneLanding)
              == Game([s.(isGrabbed := false, isMatched := true, position := Vec3(-4.0, 0.5, 0.0))], None, 10)
  {
  }

  /** A red shape released 2.0 from the red zone's centre in the horizontal
      plane floats back to height 2.5 and depth 0, keeping its x, and scores
      nothing. */
  lemma ReleaseOutsideZone()
    ensures var s := Shape("shape-0", Sphere, Red, Vec3(-2.8, 1.0, 1.6), false, true);
            var g := Game([s], Some("shape-0"), 0);
            Tick(g, HandData(0.2, 0.7, false, true), 10.0, 5.0, ZoneLanding)
              == Game([s.(isGrabbed := false, position := Vec3(-2.8, 2.5, 0.0))], None, 0)
  {
  }
}

=== FILE: types.dfy ===
/** The records shared by the gesture extractor and the game logic (types.ts),
    plus the squared Euclidean distance used wherever the program compares a
    `distanceTo` or `Math.sqrt` result with a radius. */
module Types {

  /** Absent-or-present value; stands for `T | null` and for optional fields. */
  datatype Option<+T> = None | Some(value: T)

  /** Either a value or the reason it could not be produced. */
  datatype Result<+T, +E> = Success(value: T) | Failure(error: E)

  /** `ColorType`: the palette; each colour has one destination zone. */
  datatype Color = Red | Green | Blue

  /** `GameShape['type']`: cosmetic, never changes. */
  datatype Kind = Cube | Sphere | Tetrahedron

  /** A point of the scene, `[x, y, z]`. */
  datatype Vec3 = Vec3(x: real, y: real, z: real)

  /** `GameShape`: one movable object. */
  datatype Shape = Shape(
    id: string,
    kind: Kind,
    color: Color,
    position: Vec3,
    isMatched: bool,
    isGrabbed: bool)

  /** `HandData`: the per-frame hand signal; `x`, `y` are normalised image coordinates. */
  datatype HandData = HandData(x: real, y: real, isPinching: bool, isPresent: bool)

  /** `ZoneData`: a capture circle of one colour. */
  datatype Zone = Zone(color: Color, position: Vec3, radius: real)

  function Sq(a: real): (r: real)
    ensures r >= 0.0
  {
    a * a
  }

  /** Square of three.js `a.distanceTo(b)`. Since both a distance and a radius
      are non-negative, `distanceTo(a, b) < rad` holds exactly when
      `Dist2(a, b) < Sq(rad)`. */
  function Dist2(a: Vec3, b: Vec3): (r: real)
    ensures r >= 0.0
  {
    Sq(a.x - b.x) + Sq(a.y - b.y) + Sq(a.z - b.z)
  }

  /** Two snapshots of a shape describe the same object: what a tick may never change. */
  predicate SameIdentity(a: Shape, b: Shape) {
    a.id == b.id && a.kind == b.kind && a.color == b.color
  }
}
